=== FILE: README.md ===
# TextureVideoView playback state machine

A Dafny model of the playback controller in `TextureVideoView`, a video view that drives an
Android `MediaPlayer` and renders it onto a `TextureView` surface. The view keeps two
registers: `currentState` is what the player is doing, and `targetState` is what the caller
last asked for. Both take one of seven values: Error, Idle, Preparing, Prepared, Playing,
Paused and PlaybackCompleted. Next to them the view holds:

- the pending seek (`seekWhenPrepared`);
- the three capability flags;
- the buffer percentage;
- the last reported video size;
- whether a uri, a surface and a player are present.

Every public call and every callback changes this state on one thread. The model is therefore
a set of pure functions `View -> View`.

- `optional.dfy`: `Option`, standing in for the nullable references.
- `view_state.dfy` (`ViewState`): the state record `View`, the player as an abstract
  `Engine(playing, position, duration)`, the `isInPlaybackState` predicate, the query
  sentinels and the engine invariant `Wf` (no player exactly when Idle).
- `transport.dfy` (`Transport`): `setVideoURI`, `start`, `pause`, `seekTo`,
  `suspend`, `resume`, `stopPlayback`, and the internal `openVideo` and `release`.
- `listeners.dfy` (`Listeners`): the prepared, video-size, completion, error and
  buffering listeners of the player, and the available, size-changed and destroyed methods
  of the surface-texture listener.
- `playback.dfy` (`Playback`): one `Event` sum type over all of the above, `Step` and
  `Run`, and the lemmas about traces.
- `measure.dfy` (`Measure`): the aspect-ratio fit of `onMeasure`. It is computed both in
  Java's 32-bit int arithmetic (as written) and in exact arithmetic (as intended).

Inputs the view gets from foreign code are parameters of the model:

- The outcome of the synchronous player setup in `openVideo` is an `OpenOutcome`:
  every setter succeeds and `prepareAsync` is issued, `setAudioSessionId` throws, or
  `setDataSource` throws.
- The prepared callback carries the video size and the duration the player reports.
- `onMeasure` takes the spec modes, the spec sizes and the sizes `getDefaultSize` chose.

A freshly built player is modelled as not playing, at position 0, with duration 0 until it is
prepared. The player also stops playing when it reports completion.

The model follows the code in four places where a cleaner design would differ:

- The prepared listener does not check that the view is Preparing.
- Callbacks carry no player generation. A callback that arrives after its player is released
  still changes the view (`Playback.StalePreparedBreaksWf`). The engine invariant is proved
  for traces in which player callbacks arrive only while a player exists (`Admissible`).
- The capability flags are set by the first prepared callback and never cleared.
- Surface destruction without a player only drops the surface and leaves `targetState` as it was.

## Model

| member | source | states |
|---|---|---|
| Transport.Release | library/src/main/java/com/sprylab/android/widget/TextureVideoView.java:501-513 | with a player: drops it, current becomes Idle, target cleared only when asked; without a player: nothing changes; the uri, surface, seek, flags and buffer are never touched |
| Transport.OpenVideo | library/src/main/java/com/sprylab/android/widget/TextureVideoView.java:255-293 | no-op unless uri and surface are both present; otherwise a fresh player replaces the old one and the view is either Preparing with the target kept and buffer 0, or Error/Error with the fresh player still attached; never in playback state afterwards |
| Transport.SetVideoUri | library/src/main/java/com/sprylab/android/widget/TextureVideoView.java:234-241 | records uri and headers and resets the pending seek to 0; with a surface a fresh player is attached and the view is Preparing with the target kept when setup succeeds, Error/Error otherwise, the buffer reset to 0 unless setAudioSessionId threw; without a surface or uri nothing else changes; flags and video size kept |
| Transport.StopPlayback | library/src/main/java/com/sprylab/android/widget/TextureVideoView.java:243-253 | leaves no player; with a player both registers become Idle; without one nothing changes; everything else (surface, uri, pending seek, video size, buffer, flags) is kept |
| Transport.Suspend | library/src/main/java/com/sprylab/android/widget/TextureVideoView.java:600-602 | leaves no player and keeps the target state and pending seek; with a player only the player and current (now Idle) change, without one nothing changes |
| Transport.Resume | library/src/main/java/com/sprylab/android/widget/TextureVideoView.java:604-606 | with a uri and a surface, reopens a fresh player into Preparing keeping the target when setup succeeds, Error/Error otherwise, buffer reset unless setAudioSessionId threw; otherwise nothing changes; the pending seek, uri, headers, surface, flags and video size always survive |
| Transport.Start | library/src/main/java/com/sprylab/android/widget/TextureVideoView.java:580-587 | target always becomes Playing; in playback state the player plays and current is Playing, its position and duration kept; otherwise only the target changes |
| Transport.Pause | library/src/main/java/com/sprylab/android/widget/TextureVideoView.java:589-598 | target always becomes Paused and the view is not playing afterwards; current becomes Paused only if it was playing, and then the player keeps its position and duration; otherwise only the target changes |
| Transport.SeekTo | library/src/main/java/com/sprylab/android/widget/TextureVideoView.java:625-633 | in playback state the position becomes ms and the pending seek is cleared, play state and duration kept; otherwise only the pending seek is recorded; the registers never change |
| Listeners.OnPrepared | library/src/main/java/com/sprylab/android/widget/TextureVideoView.java:323-365 | grants all three capabilities and records the size; with a player: in playback state, pending seek consumed (position equals it), duration reported, Playing exactly when the target was Playing (whether or not the size is known), otherwise Prepared; target never changes |
| Listeners.OnVideoSizeChanged | library/src/main/java/com/sprylab/android/widget/TextureVideoView.java:311-321 | records the reported video size and changes nothing else |
| Listeners.OnCompletion | library/src/main/java/com/sprylab/android/widget/TextureVideoView.java:368-380 | both registers PlaybackCompleted, not playing; with a player the position and duration stay visible instead of the sentinels; nothing but the registers and the player changes |
| Listeners.OnError | library/src/main/java/com/sprylab/android/widget/TextureVideoView.java:390-410 | both registers Error whatever the codes; out of playback state, duration -1 and position 0; nothing else changes |
| Listeners.OnBufferingUpdate | library/src/main/java/com/sprylab/android/widget/TextureVideoView.java:412-417 | the percentage is what the buffer query returns next while a player exists; nothing else changes |
| Listeners.OnSurfaceAvailable | library/src/main/java/com/sprylab/android/widget/TextureVideoView.java:474-478 | the surface is present; without a uri nothing else changes; with one a fresh player is built and the view is Preparing with the target kept when setup succeeds, Error/Error otherwise; pending seek, flags and video size kept |
| Listeners.OnSurfaceSizeChanged | library/src/main/java/com/sprylab/android/widget/TextureVideoView.java:462-472 | acts only with a player, target Playing and a positive size; then in playback state it consumes the pending seek and plays; while still preparing the view is unchanged; only the player, current and pending seek can change, and the duration is kept |
| Listeners.OnSurfaceDestroyed | library/src/main/java/com/sprylab/android/widget/TextureVideoView.java:480-490 | surface and player gone; with a player both registers Idle and nothing else changes; without one only the surface changes |
| ViewState.Initial | library/src/main/java/com/sprylab/android/widget/TextureVideoView.java:83-102 | the field initialisers together with `initVideoView` (lines 195-204): both registers Idle, no uri, headers, surface or player, sizes, buffer and pending seek 0, flags false; the engine invariant holds and every query returns its sentinel |
| ViewState.NoEngineSentinels | library/src/main/java/com/sprylab/android/widget/TextureVideoView.java:608-653 | with no player a well-formed view is Idle: duration -1, position 0, not playing, buffer 0 |
| ViewState.IsInPlaybackState | library/src/main/java/com/sprylab/android/widget/TextureVideoView.java:648-653 | only with a player; under the engine invariant it holds exactly when current is Prepared, Playing, Paused or PlaybackCompleted |
| ViewState.Duration | library/src/main/java/com/sprylab/android/widget/TextureVideoView.java:609-615 | the player's duration in playback state; -1 while Idle, Error or Preparing |
| ViewState.CurrentPosition | library/src/main/java/com/sprylab/android/widget/TextureVideoView.java:618-623 | the player's position in playback state; 0 while Idle, Error or Preparing |
| ViewState.IsPlaying | library/src/main/java/com/sprylab/android/widget/TextureVideoView.java:636-638 | in playback state, the player's playing flag; true only when a player exists and reports playing; under the engine invariant only in Prepared, Playing, Paused or PlaybackCompleted |
| ViewState.BufferPercentage | library/src/main/java/com/sprylab/android/widget/TextureVideoView.java:641-646 | under the engine invariant, 0 while Idle (no player) and the last buffering update otherwise |
| Playback.StepPreservesWf | library/src/main/java/com/sprylab/android/widget/TextureVideoView.java:501-513 | every step whose player callbacks come from an existing player keeps "no player exactly when Idle" |
| Playback.RunPreservesWf | library/src/main/java/com/sprylab/android/widget/TextureVideoView.java:481-513 | the engine invariant holds along every admissible trace |
| Playback.NoEngineAfterRun | library/src/main/java/com/sprylab/android/widget/TextureVideoView.java:608-646 | from a new view, an admissible trace that leaves no player leaves Idle and every sentinel |
| Playback.StalePreparedBreaksWf | library/src/main/java/com/sprylab/android/widget/TextureVideoView.java:323-325 | a prepared callback with no player makes the view Prepared without a player, breaking the invariant |
| Playback.StepCapabilities | library/src/main/java/com/sprylab/android/widget/TextureVideoView.java:327 | one step sets the capability flags exactly when it is the prepared callback and never clears them |
| Playback.RunCapabilities | library/src/main/java/com/sprylab/android/widget/TextureVideoView.java:100-102 | after any trace each flag is set iff it was set before or the trace holds a prepared callback |
| Playback.CapabilitiesFromInitial | library/src/main/java/com/sprylab/android/widget/TextureVideoView.java:655-668 | from a new view each capability query is false until the first prepared callback and true afterwards |
| Playback.IntentsWhilePreparing | library/src/main/java/com/sprylab/android/widget/TextureVideoView.java:580-598 | while preparing, start/pause calls change only the target, and the last call decides it |
| Playback.LastIntentWins | library/src/main/java/com/sprylab/android/widget/TextureVideoView.java:346-364 | after start/pause calls while preparing, the prepared callback ends Playing iff the last call was start, else Prepared |
| Playback.SeekBeforePreparedApplied | library/src/main/java/com/sprylab/android/widget/TextureVideoView.java:338-341 | a seek requested while preparing is applied by the prepared callback and nothing stays pending; a seek to 0, which is not replayed, holds when the preparing player is at 0, as every freshly opened one |
| Playback.SuspendResumeKeepsIntent | library/src/main/java/com/sprylab/android/widget/TextureVideoView.java:258-260 | suspend, resume and prepared end playing exactly when the target was Playing before the suspend |
| Playback.StopResumeDoesNotPlay | library/src/main/java/com/sprylab/android/widget/TextureVideoView.java:243-253 | after stopPlayback with a player, resume and prepared end in Prepared, not playing, target Idle |
| Playback.StartBeforeSourceAutoPlays | library/src/main/java/com/sprylab/android/widget/TextureVideoView.java:284-286 | start before any source records Playing with no player; after setVideoURI, surface available and prepared the view plays |
| Playback.PreparedWithoutStartReportsDuration | library/src/main/java/com/sprylab/android/widget/TextureVideoView.java:608-615 | without start, the prepared view is not playing and reports the player's duration and position 0 |
| Measure.NoVideoSizeKeepsDefaults | library/src/main/java/com/sprylab/android/widget/TextureVideoView.java:173-176 | without a positive video size the measured size is the default size |
| Measure.ExactlyBothFits | library/src/main/java/com/sprylab/android/widget/TextureVideoView.java:131-141 | both specs EXACTLY, in exact arithmetic: the result lies within the spec sizes, equals one of them, and the other side is the aspect-correct length rounded down |
| Measure.WidthExactlyFits | library/src/main/java/com/sprylab/android/widget/TextureVideoView.java:142-149 | width EXACTLY only, in exact arithmetic: width is the spec width, height is the aspect-correct height rounded down, capped by an AT_MOST height |
| Measure.HeightExactlyFits | library/src/main/java/com/sprylab/android/widget/TextureVideoView.java:150-157 | height EXACTLY only, in exact arithmetic: height is the spec height, width is the aspect-correct width rounded down, capped by an AT_MOST width |
| Measure.UnconstrainedKeepsVideoSize | library/src/main/java/com/sprylab/android/widget/TextureVideoView.java:158-161 | neither spec EXACTLY and the video within every AT_MOST bound, in exact arithmetic: the video's own size |
| Measure.AtMostBothFits | library/src/main/java/com/sprylab/android/widget/TextureVideoView.java:158-171 | both specs AT_MOST, in exact arithmetic: the video size exactly when it fits; otherwise one side on its bound and the other its aspect-correct length rounded down; never beyond either bound |
| Measure.OnMeasureAsWritten | library/src/main/java/com/sprylab/android/widget/TextureVideoView.java:120-177 | in 32-bit int arithmetic: the default size without a positive video size; while the products fit in an int, equal to the exact fit in every mode |
| Measure.OnMeasure | library/src/main/java/com/sprylab/android/widget/TextureVideoView.java:120-177 | in exact arithmetic: the default size without a positive video size; otherwise never negative and within each EXACTLY or AT_MOST spec size |
| Measure.ExactlyBothOverflowExample | library/src/main/java/com/sprylab/android/widget/TextureVideoView.java:137-138 | a 3:1 video in a 100 by 2^30-1 EXACTLY box measures a negative width as written; exactly it is 100 by 33 |
| Measure.WidthExactlyOverflowExample | library/src/main/java/com/sprylab/android/widget/TextureVideoView.java:145-148 | a 1:3 video, width EXACTLY and height AT_MOST 2^30-1, measures a negative height as written; exactly the height is capped at 2^30-1 |
| Measure.HeightExactlyOverflowExample | library/src/main/java/com/sprylab/android/widget/TextureVideoView.java:153-156 | a 3:1 video, width AT_MOST and height EXACTLY 2^30-1, measures a negative width as written; exactly the width is capped at 2^30-1 |
| Measure.AtMostOverflowExample | library/src/main/java/com/sprylab/android/widget/TextureVideoView.java:162-166 | a 3 by 2^30 video under two AT_MOST 2^30-1 bounds measures width -1 as written; exactly it is 2 by 2^30-1 |

## Left out

- MediaController attach, show, hide and enable calls, including the "paused mid-content" hint of the prepared listener: UI glue with no effect on the state.
- Audio focus requests and releases, the audio session id (`audioSession`, `getAudioSessionId`): foreign Android services.
- Forwarding to the caller's prepared, completion, error and info listeners, and logging: pass-through with no state effect. The info listener only forwards.
- `setOn*Listener`, `setMediaController`, `setVideoPath` (`Uri.parse`), `resolveAdjustedSize`, `getDefaultSize`, `requestLayout`, `invalidate`, `setDefaultBufferSize`: framework calls; the uri is an opaque string and the default sizes are parameters.
- Touch, trackball and key handling and the accessibility overrides: UI input glue.
- `onSurfaceTextureUpdated`: it does nothing.
- The width and height passed to `onSurfaceTextureAvailable`: the code ignores them.
- The player's position advancing while it plays: that happens inside the player; the model moves the position only by seeks.
- Any exception other than `IOException` and `IllegalArgumentException` during `openVideo` (an `IllegalStateException`, or a `SecurityException` from `setDataSource`): the code does not catch it, so it leaves the view with the fresh player already assigned.
- Threading and callback delivery order: everything runs on the UI thread.

## Findings

| source | as written | input that shows it | evidently intended | confidence | as-written member | corrected member |
|---|---|---|---|---|---|---|
| library/src/main/java/com/sprylab/android/widget/TextureVideoView.java:137-138 | with both specs EXACTLY, `videoWidth * height` and `height * videoWidth` are computed in 32-bit int and can wrap to a negative value | video 3 by 1, width spec EXACTLY 100, height spec EXACTLY 1073741823 | measured 100 by 33, the largest 3:1 box inside the spec | not executed; needs a spec size times a video dimension of at least 2^31 | Measure.ExactlyBothOverflowExample | Measure.ExactlyBothFits |
| library/src/main/java/com/sprylab/android/widget/TextureVideoView.java:145-148 | with only the width EXACTLY, `width * videoHeight` wraps to a negative int, which the AT_MOST cap does not catch | video 1 by 3, width spec EXACTLY 1073741823, height spec AT_MOST 1073741823 | height capped at 1073741823 | not executed; needs a spec size times a video dimension of at least 2^31 | Measure.WidthExactlyOverflowExample | Measure.WidthExactlyFits |
| library/src/main/java/com/sprylab/android/widget/TextureVideoView.java:153-156 | with only the height EXACTLY, `height * videoWidth` wraps to a negative int, which the AT_MOST cap does not catch | video 3 by 1, width spec AT_MOST 1073741823, height spec EXACTLY 1073741823 | width capped at 1073741823 | not executed; needs a spec size times a video dimension of at least 2^31 | Measure.HeightExactlyOverflowExample | Measure.HeightExactlyFits |
| library/src/main/java/com/sprylab/android/widget/TextureVideoView.java:162-171 | with neither spec EXACTLY, the scaling products `height * videoWidth` and `width * videoHeight` wrap, and the division truncates a negative value toward zero | video 3 by 1073741824, both specs AT_MOST 1073741823 | measured 2 by 1073741823 | not executed; needs a spec size times a video dimension of at least 2^31 | Measure.AtMostOverflowExample | Measure.AtMostBothFits |

=== FILE: listeners.dfy ===
/**
  The callbacks the view installs: the five media-player listeners
  (prepared, video size changed, completion, error, buffering update) and
  the three surface-texture listener methods (available, size changed,
  destroyed). None of them checks which state the view is in or whether
  the player that calls it is still the current one.
*/
module Listeners {

  import opened Optional
  import opened ViewState
  import Transport

  /**
    onPrepared: the view becomes Prepared with every capability granted,
    replays any pending seek and, when the caller asked to play, starts.
  */
  function OnPrepared(s: View, width: int, height: int, duration: int): (r: View)
    ensures r.canPause && r.canSeekBack && r.canSeekForward
    ensures r.videoWidth == width && r.videoHeight == height
    ensures r.target == s.target
    ensures r.engine.Some? <==> s.engine.Some?
    ensures s.engine.Some? ==>
      && IsInPlaybackState(r)
      && r.seekWhenPrepared == 0
      && Duration(r) == duration
      && (s.seekWhenPrepared != 0 ==> CurrentPosition(r) == s.seekWhenPrepared)
      && (s.seekWhenPrepared == 0 ==> CurrentPosition(r) == s.engine.value.position)
      && (s.target == Playing ==> r.current == Playing && IsPlaying(r))
      && (s.target != Playing ==>
            r.current == Prepared && r.engine.value.playing == s.engine.value.playing)
    ensures s.engine.None? ==> r.current == Prepared && r.seekWhenPrepared == s.seekWhenPrepared
    ensures r.uri == s.uri && r.headers == s.headers && r.hasSurface == s.hasSurface
    ensures r.bufferPercentage == s.bufferPercentage
  {
    var engine := if s.engine.Some? then Some(s.engine.value.(duration := duration)) else None;
    var ready := s.(current := Prepared, engine := engine,
                    canPause := true, canSeekBack := true, canSeekForward := true,
                    videoWidth := width, videoHeight := height);
    var seeked := if ready.seekWhenPrepared != 0
                  then Transport.SeekTo(ready, ready.seekWhenPrepared) else ready;
    if seeked.target == Playing then Transport.Start(seeked) else seeked
  }

  /** onVideoSizeChanged: records the reported video size and nothing else. */
  function OnVideoSizeChanged(s: View, width: int, height: int): (r: View)
    ensures r.videoWidth == width && r.videoHeight == height
    ensures r.(videoWidth := s.videoWidth, videoHeight := s.videoHeight) == s
  {
    s.(videoWidth := width, videoHeight := height)
  }

  /**
    onCompletion: both registers become PlaybackCompleted, overriding the
    caller's intent; the engine has stopped but stays attached, so the
    position is still reported rather than the sentinel.
  */
  function OnCompletion(s: View): (r: View)
    ensures r.current == PlaybackCompleted && r.target == PlaybackCompleted
    ensures !IsPlaying(r)
    ensures r.engine.Some? <==> s.engine.Some?
    ensures s.engine.Some? ==>
      IsInPlaybackState(r) && CurrentPosition(r) == s.engine.value.position &&
      Duration(r) == s.engine.value.duration
    ensures r.(current := s.current, target := s.target, engine := s.engine) == s
  {
    var engine := if s.engine.Some? then Some(s.engine.value.(playing := false)) else None;
    s.(current := PlaybackCompleted, target := PlaybackCompleted, engine := engine)
  }

  /**
    onError: whatever the error and extra codes, both registers become Error,
    overriding the caller's intent; every engine query falls back to its sentinel.
  */
  function OnError(s: View, what: int, extra: int): (r: View)
    ensures r.current == Error && r.target == Error
    ensures !IsInPlaybackState(r) && !IsPlaying(r)
    ensures Duration(r) == -1 && CurrentPosition(r) == 0
    ensures r.(current := s.current, target := s.target) == s
  {
    s.(current := Error, target := Error)
  }

  /** onBufferingUpdate: the reported percentage is what getBufferPercentage returns next. */
  function OnBufferingUpdate(s: View, percent: int): (r: View)
    ensures s.engine.Some? ==> BufferPercentage(r) == percent
    ensures r.(bufferPercentage := s.bufferPercentage) == s
  {
    s.(bufferPercentage := percent)
  }

  /**
    onSurfaceTextureAvailable: records the surface and tries to open the video;
    with a uri the open ends as openVideo's does.
  */
  function OnSurfaceAvailable(s: View, outcome: OpenOutcome): (r: View)
    ensures r.hasSurface
    ensures s.uri.None? ==> r == s.(hasSurface := true)
    ensures s.uri.Some? ==>
      && r.engine == Some(FreshEngine)
      && !IsInPlaybackState(r)
      && (outcome == Prepares ==> r.current == Preparing && r.target == s.target)
      && (outcome != Prepares ==> r.current == Error && r.target == Error)
      && r.bufferPercentage == (if outcome == SessionRejected then s.bufferPercentage else 0)
    ensures r.seekWhenPrepared == s.seekWhenPrepared && r.uri == s.uri && r.headers == s.headers
    ensures r.videoWidth == s.videoWidth && r.videoHeight == s.videoHeight
    ensures r.canPause == s.canPause && r.canSeekBack == s.canSeekBack
    ensures r.canSeekForward == s.canSeekForward
  {
    Transport.OpenVideo(s.(hasSurface := true), outcome)
  }

  /**
    onSurfaceTextureSizeChanged: when the caller wants to play, an engine
    exists and the new size is positive, replays the pending seek and starts;
    otherwise it does nothing. While the engine is still preparing neither
    step reaches it, so the view is unchanged.
  */
  function OnSurfaceSizeChanged(s: View, width: int, height: int): (r: View)
    ensures !(s.engine.Some? && s.target == Playing && width > 0 && height > 0) ==> r == s
    ensures !IsInPlaybackState(s) ==> r == s
    ensures IsInPlaybackState(s) && s.target == Playing && width > 0 && height > 0 ==>
      && r.current == Playing && IsPlaying(r)
      && r.seekWhenPrepared == 0
      && (s.seekWhenPrepared != 0 ==> CurrentPosition(r) == s.seekWhenPrepared)
      && (s.seekWhenPrepared == 0 ==> CurrentPosition(r) == CurrentPosition(s))
      && Duration(r) == Duration(s)
    ensures r.target == s.target
    ensures r.(engine := s.engine, current := s.current, seekWhenPrepared := s.seekWhenPrepared) == s
  {
    if s.engine.Some? && s.target == Playing && width > 0 && height > 0 then
      var seeked := if s.seekWhenPrepared != 0
                    then Transport.SeekTo(s, s.seekWhenPrepared) else s;
      Transport.Start(seeked)
    else
      s
  }

  /**
    onSurfaceTextureDestroyed: drops the surface and fully tears down the
    engine, clearing both registers; without an engine only the surface goes.
  */
  function OnSurfaceDestroyed(s: View): (r: View)
    ensures !r.hasSurface && r.engine.None?
    ensures s.engine.Some? ==> r.current == Idle && r.target == Idle
    ensures s.engine.None? ==> r == s.(hasSurface := false)
    ensures s.engine.Some? ==>
      r == s.(hasSurface := false, engine := None, current := Idle, target := Idle)
    ensures r.uri == s.uri && r.seekWhenPrepared == s.seekWhenPrepared
  {
    Transport.Release(s.(hasSurface := false), true)
  }

}

=== FILE: measure.dfy ===
/**
  The aspect-ratio fit of onMeasure. Given the video size, the mode and
  size of each MeasureSpec, and the sizes getDefaultSize already chose, it
  picks the measured width and height. The fit is written once, over an
  arithmetic parameter: JavaInt is the 32-bit int arithmetic of the Java code
  (wrapping products, division truncating toward zero), Exact is the
  arithmetic the code evidently means. OnMeasure, the Exact fit, is the one
  the fitting lemmas below are about.
*/
module Measure {

  /** The three modes a MeasureSpec can carry. */
  datatype SpecMode = Unspecified | AtMost | Exactly

  /** The size part of a MeasureSpec: its low 30 bits. */
  type SpecSize = x: int | 0 <= x < 0x4000_0000

  /** A Java int. */
  type Int32 = x: int | -0x8000_0000 <= x < 0x8000_0000

  datatype Measured = Measured(width: int, height: int)

  datatype Arith = JavaInt | Exact

  /** Two's-complement wrap-around of a mathematical integer into a Java int. */
  function Wrap32(x: int): (r: Int32)
    ensures (r - x) % 0x1_0000_0000 == 0
    ensures -0x8000_0000 <= x < 0x8000_0000 ==> r == x
  {
    (x + 0x8000_0000) % 0x1_0000_0000 - 0x8000_0000
  }

  /** Java's integer division by a positive divisor: it truncates toward zero. */
  function JavaDiv(a: int, b: int): (q: int)
    requires b > 0
    ensures var rem := a - q * b; -b < rem < b && (a >= 0 ==> rem >= 0) && (a < 0 ==> rem <= 0)
  {
    if a >= 0 then a / b else -((-a) / b)
  }

  function Mul(ar: Arith, a: int, b: int): int {
    if ar == JavaInt then Wrap32(a * b) else a * b
  }

  function Quot(ar: Arith, a: int, b: int): int
    requires b > 0
  {
    if ar == JavaInt then JavaDiv(a, b) else a / b
  }

  /** The body of onMeasure, in the given arithmetic. */
  function Fit(ar: Arith, videoWidth: Int32, videoHeight: Int32,
               widthMode: SpecMode, widthSize: SpecSize,
               heightMode: SpecMode, heightSize: SpecSize,
               defaultWidth: int, defaultHeight: int): Measured
  {
    if videoWidth > 0 && videoHeight > 0 then
      if widthMode == Exactly && heightMode == Exactly then
        // the box is fixed: shrink the side that would break the aspect ratio
        if Mul(ar, videoWidth, heightSize) < Mul(ar, widthSize, videoHeight) then
          Measured(Quot(ar, Mul(ar, heightSize, videoWidth), videoHeight), heightSize)
        else if Mul(ar, videoWidth, heightSize) > Mul(ar, widthSize, videoHeight) then
          Measured(widthSize, Quot(ar, Mul(ar, widthSize, videoHeight), videoWidth))
        else
          Measured(widthSize, heightSize)
      else if widthMode == Exactly then
        var height := Quot(ar, Mul(ar, widthSize, videoHeight), videoWidth);
        Measured(widthSize, if heightMode == AtMost && height > heightSize then heightSize else height)
      else if heightMode == Exactly then
        var width := Quot(ar, Mul(ar, heightSize, videoWidth), videoHeight);
        Measured(if widthMode == AtMost && width > widthSize then widthSize else width, heightSize)
      else
        // start from the video size; scale down when too tall, then when too wide
        var fitted :=
          if heightMode == AtMost && videoHeight > heightSize then
            Measured(Quot(ar, Mul(ar, heightSize, videoWidth), videoHeight), heightSize)
          else
            Measured(videoWidth, videoHeight);
        if widthMode == AtMost && fitted.width > widthSize then
          Measured(widthSize, Quot(ar, Mul(ar, widthSize, videoHeight), videoWidth))
        else
          fitted
    else
      Measured(defaultWidth, defaultHeight)
  }

  /**
    onMeasure as TextureVideoView computes it, in 32-bit int arithmetic.
    Without a known video size it keeps the default sizes, and while every
    product it forms fits in a Java int it agrees with the exact fit in every mode.
  */
  function OnMeasureAsWritten(videoWidth: Int32, videoHeight: Int32,
                              widthMode: SpecMode, widthSize: SpecSize,
                              heightMode: SpecMode, heightSize: SpecSize,
                              defaultWidth: int, defaultHeight: int): (m: Measured)
    ensures videoWidth <= 0 || videoHeight <= 0 ==> m == Measured(defaultWidth, defaultHeight)
    ensures videoWidth * heightSize < 0x8000_0000 && widthSize * videoHeight < 0x8000_0000 ==>
      m == OnMeasure(videoWidth, videoHeight, widthMode, widthSize,
                     heightMode, heightSize, defaultWidth, defaultHeight)
  {
    if videoWidth > 0 && videoHeight > 0
       && videoWidth * heightSize < 0x8000_0000 && widthSize * videoHeight < 0x8000_0000 then
      JavaIntFitIsExact(videoWidth, videoHeight, widthMode, widthSize, heightMode, heightSize,
                        defaultWidth, defaultHeight);
      Fit(JavaInt, videoWidth, videoHeight, widthMode, widthSize, heightMode, heightSize,
          defaultWidth, defaultHeight)
    else
      Fit(JavaInt, videoWidth, videoHeight, widthMode, widthSize, heightMode, heightSize,
          defaultWidth, defaultHeight)
  }

  /** With no product past the int range, int and exact arithmetic give the same fit. */
  lemma JavaIntFitIsExact(videoWidth: Int32, videoHeight: Int32,
                          widthMode: SpecMode, widthSize: SpecSize,
                          heightMode: SpecMode, heightSize: SpecSize,
                          defaultWidth: int, defaultHeight: int)
    requires videoWidth > 0 && videoHeight > 0
    requires videoWidth * heightSize < 0x8000_0000 && widthSize * videoHeight < 0x8000_0000
    ensures Fit(JavaInt, videoWidth, videoHeight, widthMode, widthSize, heightMode, heightSize,
                defaultWidth, defaultHeight)
         == Fit(Exact, videoWidth, videoHeight, widthMode, widthSize, heightMode, heightSize,
                defaultWidth, defaultHeight)
  {
    MulNonneg(heightSize, videoWidth);
    MulNonneg(widthSize, videoHeight);
    assert Mul(JavaInt, videoWidth, heightSize) == Mul(Exact, videoWidth, heightSize);
    assert Mul(JavaInt, heightSize, videoWidth) == Mul(Exact, heightSize, videoWidth);
    assert Mul(JavaInt, widthSize, videoHeight) == Mul(Exact, widthSize, videoHeight);
    assert Quot(JavaInt, heightSize * videoWidth, videoHeight)
        == Quot(Exact, heightSize * videoWidth, videoHeight);
    assert Quot(JavaInt, widthSize * videoHeight, videoWidth)
        == Quot(Exact, widthSize * videoHeight, videoWidth);
  }

  /**
    onMeasure with the products computed without overflow (as 64-bit longs
    would). For a known video size the result is never negative, and on each
    axis whose spec is EXACTLY or AT_MOST it never exceeds the spec size.
  */
  function OnMeasure(videoWidth: Int32, videoHeight: Int32,
                     widthMode: SpecMode, widthSize: SpecSize,
                     heightMode: SpecMode, heightSize: SpecSize,
                     defaultWidth: int, defaultHeight: int): (m: Measured)
    ensures videoWidth <= 0 || videoHeight <= 0 ==> m == Measured(defaultWidth, defaultHeight)
    ensures videoWidth > 0 && videoHeight > 0 ==>
      && 0 <= m.width && 0 <= m.height
      && (widthMode != Unspecified ==> m.width <= widthSize)
      && (heightMode != Unspecified ==> m.height <= heightSize)
  {
    if videoWidth > 0 && videoHeight > 0 then
      ExactFitWithinSpecs(videoWidth, videoHeight, widthMode, widthSize, heightMode, heightSize,
                          defaultWidth, defaultHeight);
      Fit(Exact, videoWidth, videoHeight, widthMode, widthSize, heightMode, heightSize,
          defaultWidth, defaultHeight)
    else
      Fit(Exact, videoWidth, videoHeight, widthMode, widthSize, heightMode, heightSize,
          defaultWidth, defaultHeight)
  }

  /** The exact fit of a known video size respects every bounded spec and is never negative. */
  lemma ExactFitWithinSpecs(videoWidth: Int32, videoHeight: Int32,
                            widthMode: SpecMode, widthSize: SpecSize,
                            heightMode: SpecMode, heightSize: SpecSize,
                            defaultWidth: int, defaultHeight: int)
    requires videoWidth > 0 && videoHeight > 0
    ensures WithinSpecs(Fit(Exact, videoWidth, videoHeight, widthMode, widthSize,
                            heightMode, heightSize, defaultWidth, defaultHeight),
                        widthMode, widthSize, heightMode, heightSize)
  {
    MulNonneg(heightSize, videoWidth);
    MulNonneg(widthSize, videoHeight);
    if widthMode == Exactly && heightMode == Exactly {
      FixedBoxWithinSpecs(videoWidth, videoHeight, widthSize, heightSize, defaultWidth, defaultHeight);
    } else if widthMode == Exactly || heightMode == Exactly {
      assert 0 <= (widthSize * videoHeight) / videoWidth;
      assert 0 <= (heightSize * videoWidth) / videoHeight;
    } else {
      FreeFitWithinSpecs(videoWidth, videoHeight, widthMode, widthSize, heightMode, heightSize,
                         defaultWidth, defaultHeight);
    }
  }

  /** A measured size is never negative and stays inside each bounded spec. */
  predicate WithinSpecs(m: Measured, widthMode: SpecMode, widthSize: SpecSize,
                        heightMode: SpecMode, heightSize: SpecSize)
  {
    && 0 <= m.width && 0 <= m.height
    && (widthMode != Unspecified ==> m.width <= widthSize)
    && (heightMode != Unspecified ==> m.height <= heightSize)
  }

  /** Both specs EXACTLY: the shrunk side stays inside its spec. */
  lemma FixedBoxWithinSpecs(videoWidth: Int32, videoHeight: Int32,
                            widthSize: SpecSize, heightSize: SpecSize,
                            defaultWidth: int, defaultHeight: int)
    requires videoWidth > 0 && videoHeight > 0
    ensures WithinSpecs(Fit(Exact, videoWidth, videoHeight, Exactly, widthSize,
                            Exactly, heightSize, defaultWidth, defaultHeight),
                        Exactly, widthSize, Exactly, heightSize)
  {
    var tall := heightSize * videoWidth;
    var wide := widthSize * videoHeight;
    MulNonneg(heightSize, videoWidth);
    MulNonneg(widthSize, videoHeight);
    if videoWidth * heightSize < wide {
      DivBelow(tall, videoHeight, widthSize);
    } else if videoWidth * heightSize > wide {
      DivBelow(wide, videoWidth, heightSize);
    }
  }

  /** Neither spec EXACTLY: the scale-downs keep both sides inside their AT_MOST bounds. */
  lemma FreeFitWithinSpecs(videoWidth: Int32, videoHeight: Int32,
                           widthMode: SpecMode, widthSize: SpecSize,
                           heightMode: SpecMode, heightSize: SpecSize,
                           defaultWidth: int, defaultHeight: int)
    requires videoWidth > 0 && videoHeight > 0
    requires widthMode != Exactly && heightMode != Exactly
    ensures WithinSpecs(Fit(Exact, videoWidth, videoHeight, widthMode, widthSize,
                            heightMode, heightSize, defaultWidth, defaultHeight),
                        widthMode, widthSize, heightMode, heightSize)
  {
    MulNonneg(heightSize, videoWidth);
    MulNonneg(widthSize, videoHeight);
    if heightMode == AtMost && videoHeight > heightSize {
      TallFitWithinSpecs(videoWidth, videoHeight, widthMode, widthSize, heightSize,
                         defaultWidth, defaultHeight);
    } else if widthMode == AtMost && videoWidth > widthSize {
      ShrunkOnceFits(videoWidth, videoHeight, widthSize);
      assert Fit(Exact, videoWidth, videoHeight, widthMode, widthSize,
                 heightMode, heightSize, defaultWidth, defaultHeight)
          == Measured(widthSize, (widthSize * videoHeight) / videoWidth);
    }
  }

  /** A video taller than its AT_MOST height: scaled to that height, then to the width if needed. */
  lemma TallFitWithinSpecs(videoWidth: Int32, videoHeight: Int32,
                           widthMode: SpecMode, widthSize: SpecSize, heightSize: SpecSize,
                           defaultWidth: int, defaultHeight: int)
    requires videoWidth > 0 && videoHeight > heightSize
    requires widthMode != Exactly
    ensures WithinSpecs(Fit(Exact, videoWidth, videoHeight, widthMode, widthSize,
                            AtMost, heightSize, defaultWidth, defaultHeight),
                        widthMode, widthSize, AtMost, heightSize)
  {
    var scaledWidth := (heightSize * videoWidth) / videoHeight;
    var scaledHeight := (widthSize * videoHeight) / videoWidth;
    MulNonneg(heightSize, videoWidth);
    MulNonneg(widthSize, videoHeight);
    assert 0 <= scaledWidth && 0 <= scaledHeight;
    var m := Fit(Exact, videoWidth, videoHeight, widthMode, widthSize,
                 AtMost, heightSize, defaultWidth, defaultHeight);
    if widthMode == AtMost && scaledWidth > widthSize {
      ShrunkTwiceFits(videoWidth, videoHeight, widthSize, heightSize);
      assert m == Measured(widthSize, scaledHeight);
    } else {
      assert m == Measured(scaledWidth, heightSize);
    }
  }

  /** Floor division stays below c when the dividend is below c times the divisor. */
  lemma DivBelow(a: int, b: int, c: int)
    requires 0 <= a && 0 < b && a < c * b
    ensures a / b < c
  {
    var q := a / b;
    assert a == b * q + a % b;
    MulCancel(b, q, c);
  }

  /** Cancelling a positive factor keeps a strict order. */
  lemma MulCancel(b: int, q: int, c: int)
    requires b > 0 && b * q < b * c
    ensures q < c
  {
  }

  /** A floor quotient of at least c means the dividend is at least c times the divisor. */
  lemma DivAtLeast(a: int, b: int, c: int)
    requires 0 <= a && 0 < b && a / b >= c
    ensures a >= c * b
  {
    var q := a / b;
    assert a == b * q + a % b;
    assert b * q >= b * c;
  }

  /** Without a known video size the measured size is what getDefaultSize chose. */
  lemma NoVideoSizeKeepsDefaults(videoWidth: Int32, videoHeight: Int32,
                                 widthMode: SpecMode, widthSize: SpecSize,
                                 heightMode: SpecMode, heightSize: SpecSize,
                                 defaultWidth: int, defaultHeight: int)
    requires videoWidth <= 0 || videoHeight <= 0
    ensures OnMeasure(videoWidth, videoHeight, widthMode, widthSize, heightMode, heightSize,
                      defaultWidth, defaultHeight) == Measured(defaultWidth, defaultHeight)
  {
  }

  /**
    Both specs EXACTLY: the result fits inside the box, fills it along at
    least one side, and the other side is the aspect-correct length rounded
    down.
  */
  lemma ExactlyBothFits(videoWidth: Int32, videoHeight: Int32,
                        widthSize: SpecSize, heightSize: SpecSize,
                        defaultWidth: int, defaultHeight: int)
    requires videoWidth > 0 && videoHeight > 0
    ensures var m := OnMeasure(videoWidth, videoHeight, Exactly, widthSize, Exactly, heightSize,
                               defaultWidth, defaultHeight);
      && 0 <= m.width <= widthSize && 0 <= m.height <= heightSize
      && (m.width == widthSize || m.height == heightSize)
      && (m.width < widthSize ==> m.width == heightSize * videoWidth / videoHeight)
      && (m.height < heightSize ==> m.height == widthSize * videoHeight / videoWidth)
  {
    if videoWidth * heightSize < widthSize * videoHeight {
      DivBelow(heightSize * videoWidth, videoHeight, widthSize);
    } else if videoWidth * heightSize > widthSize * videoHeight {
      DivBelow(widthSize * videoHeight, videoWidth, heightSize);
    }
  }

  /**
    Only the width EXACTLY: the width is the spec size and the height follows
    the aspect ratio, capped by an AT_MOST height spec.
  */
  lemma WidthExactlyFits(videoWidth: Int32, videoHeight: Int32,
                         heightMode: SpecMode, widthSize: SpecSize, heightSize: SpecSize,
                         defaultWidth: int, defaultHeight: int)
    requires videoWidth > 0 && videoHeight > 0 && heightMode != Exactly
    ensures var m := OnMeasure(videoWidth, videoHeight, Exactly, widthSize, heightMode, heightSize,
                               defaultWidth, defaultHeight);
      var aspect := widthSize * videoHeight / videoWidth;
      && m.width == widthSize && 0 <= m.height
      && (heightMode == AtMost ==> m.height <= heightSize)
      && m.height == (if heightMode == AtMost && aspect > heightSize then heightSize else aspect)
  {
    var product := widthSize * videoHeight;
    assert 0 <= product by { MulNonneg(widthSize, videoHeight); }
    var aspect := product / videoWidth;
    assert OnMeasure(videoWidth, videoHeight, Exactly, widthSize, heightMode, heightSize,
                     defaultWidth, defaultHeight)
        == Measured(widthSize, if heightMode == AtMost && aspect > heightSize then heightSize else aspect);
  }

  /**
    Only the height EXACTLY: the height is the spec size and the width follows
    the aspect ratio, capped by an AT_MOST width spec.
  */
  lemma HeightExactlyFits(videoWidth: Int32, videoHeight: Int32,
                          widthMode: SpecMode, widthSize: SpecSize, heightSize: SpecSize,
                          defaultWidth: int, defaultHeight: int)
    requires videoWidth > 0 && videoHeight > 0 && widthMode != Exactly
    ensures var m := OnMeasure(videoWidth, videoHeight, widthMode, widthSize, Exactly, heightSize,
                               defaultWidth, defaultHeight);
      var aspect := heightSize * videoWidth / videoHeight;
      && m.height == heightSize && 0 <= m.width
      && (widthMode == AtMost ==> m.width <= widthSize)
      && m.width == (if widthMode == AtMost && aspect > widthSize then widthSize else aspect)
  {
    var product := heightSize * videoWidth;
    assert 0 <= product by { MulNonneg(heightSize, videoWidth); }
    var aspect := product / videoHeight;
    assert OnMeasure(videoWidth, videoHeight, widthMode, widthSize, Exactly, heightSize,
                     defaultWidth, defaultHeight)
        == Measured(if widthMode == AtMost && aspect > widthSize then widthSize else aspect, heightSize);
  }

  /** Neither spec EXACTLY: a video that fits within every AT_MOST bound is shown at its own size. */
  lemma UnconstrainedKeepsVideoSize(videoWidth: Int32, videoHeight: Int32,
                                    widthMode: SpecMode, widthSize: SpecSize,
                                    heightMode: SpecMode, heightSize: SpecSize,
                                    defaultWidth: int, defaultHeight: int)
    requires videoWidth > 0 && videoHeight > 0
    requires widthMode != Exactly && heightMode != Exactly
    requires widthMode == AtMost ==> videoWidth <= widthSize
    requires heightMode == AtMost ==> videoHeight <= heightSize
    ensures OnMeasure(videoWidth, videoHeight, widthMode, widthSize, heightMode, heightSize,
                      defaultWidth, defaultHeight) == Measured(videoWidth, videoHeight)
  {
  }

  /**
    Both specs AT_MOST: a video that fits keeps its size; otherwise it is
    scaled down with its aspect ratio, so one side sits on its bound and the
    other is its aspect-correct length rounded down. The result never exceeds
    either bound.
  */
  lemma AtMostBothFits(videoWidth: Int32, videoHeight: Int32,
                       widthSize: SpecSize, heightSize: SpecSize,
                       defaultWidth: int, defaultHeight: int)
    requires videoWidth > 0 && videoHeight > 0
    ensures var m := OnMeasure(videoWidth, videoHeight, AtMost, widthSize, AtMost, heightSize,
                               defaultWidth, defaultHeight);
      && 0 <= m.width <= widthSize && 0 <= m.height <= heightSize
      && (m == Measured(videoWidth, videoHeight) <==>
            videoWidth <= widthSize && videoHeight <= heightSize)
      && (|| m == Measured(videoWidth, videoHeight)
          || m == Measured(heightSize * videoWidth / videoHeight, heightSize)
          || m == Measured(widthSize, widthSize * videoHeight / videoWidth))
  {
    var m := OnMeasure(videoWidth, videoHeight, AtMost, widthSize, AtMost, heightSize,
                       defaultWidth, defaultHeight);
    var tall := heightSize * videoWidth;
    var wide := widthSize * videoHeight;
    MulNonneg(heightSize, videoWidth);
    MulNonneg(widthSize, videoHeight);
    if videoHeight > heightSize {
      if tall / videoHeight > widthSize {
        ShrunkTwiceFits(videoWidth, videoHeight, widthSize, heightSize);
        assert m == Measured(widthSize, wide / videoWidth);
      } else {
        assert m == Measured(tall / videoHeight, heightSize);
      }
    } else if videoWidth > widthSize {
      ShrunkOnceFits(videoWidth, videoHeight, widthSize);
      assert m == Measured(widthSize, wide / videoWidth);
    } else {
      assert m == Measured(videoWidth, videoHeight);
    }
  }

  /**
    A video scaled to the height bound that is still too wide is scaled to the
    width bound, and its height then stays below the height bound.
  */
  lemma ShrunkTwiceFits(videoWidth: int, videoHeight: int, widthSize: int, heightSize: int)
    requires videoWidth > 0 && videoHeight > 0 && 0 <= widthSize && 0 <= heightSize
    requires (heightSize * videoWidth) / videoHeight > widthSize
    ensures (widthSize * videoHeight) / videoWidth < heightSize
  {
    MulNonneg(heightSize, videoWidth);
    MulNonneg(widthSize, videoHeight);
    DivAtLeast(heightSize * videoWidth, videoHeight, widthSize + 1);
    assert (widthSize + 1) * videoHeight == widthSize * videoHeight + videoHeight;
    DivBelow(widthSize * videoHeight, videoWidth, heightSize);
  }

  /** A video narrowed to a smaller width bound gets a smaller height. */
  lemma ShrunkOnceFits(videoWidth: int, videoHeight: int, widthSize: int)
    requires videoHeight > 0 && 0 <= widthSize < videoWidth
    ensures (widthSize * videoHeight) / videoWidth < videoHeight
  {
    MulNonneg(widthSize, videoHeight);
    MulLess(widthSize, videoWidth, videoHeight);
    DivBelow(widthSize * videoHeight, videoWidth, videoHeight);
  }

  /** The product of two non-negative numbers is non-negative. */
  lemma MulNonneg(a: int, b: int)
    requires 0 <= a && 0 <= b
    ensures 0 <= a * b
  {
  }

  /** Multiplying by a positive factor keeps a strict order. */
  lemma MulLess(a: int, b: int, c: int)
    requires a < b && c > 0
    ensures a * c < b * c
  {
  }

  /**
    The both-EXACTLY branch of the Java code overflows: a 3:1 video in a 100 pixel
    wide, 2^30 - 1 pixel tall box wraps videoWidth * height to a negative
    int and measures a negative width.
  */
  lemma ExactlyBothOverflowExample()
    ensures OnMeasureAsWritten(3, 1, Exactly, 100, Exactly, 0x3FFF_FFFF, 0, 0).width < 0
    ensures OnMeasure(3, 1, Exactly, 100, Exactly, 0x3FFF_FFFF, 0, 0) == Measured(100, 33)
  {
    assert Wrap32(3 * 0x3FFF_FFFF) == -1073741827;
    assert Wrap32(0x3FFF_FFFF * 3) == -1073741827;
  }

  /**
    The width-only branch overflows: a 1:3 video with an EXACTLY width and an
    AT_MOST height of 2^30 - 1 wraps width * videoHeight to a negative int,
    which passes the AT_MOST cap and is measured as a negative height.
  */
  lemma WidthExactlyOverflowExample()
    ensures OnMeasureAsWritten(1, 3, Exactly, 0x3FFF_FFFF, AtMost, 0x3FFF_FFFF, 0, 0).height < 0
    ensures OnMeasure(1, 3, Exactly, 0x3FFF_FFFF, AtMost, 0x3FFF_FFFF, 0, 0)
         == Measured(0x3FFF_FFFF, 0x3FFF_FFFF)
  {
    assert Wrap32(0x3FFF_FFFF * 3) == -1073741827;
  }

  /**
    The height-only branch overflows the same way: a 3:1 video with an AT_MOST
    width and an EXACTLY height of 2^30 - 1 is measured with a negative width.
  */
  lemma HeightExactlyOverflowExample()
    ensures OnMeasureAsWritten(3, 1, AtMost, 0x3FFF_FFFF, Exactly, 0x3FFF_FFFF, 0, 0).width < 0
    ensures OnMeasure(3, 1, AtMost, 0x3FFF_FFFF, Exactly, 0x3FFF_FFFF, 0, 0)
         == Measured(0x3FFF_FFFF, 0x3FFF_FFFF)
  {
    assert Wrap32(0x3FFF_FFFF * 3) == -1073741827;
  }

  /**
    The AT_MOST branch overflows when scaling down a video that is too tall:
    height * videoWidth wraps to a negative int, and the truncating division
    leaves a width of -1.
  */
  lemma AtMostOverflowExample()
    ensures OnMeasureAsWritten(3, 0x4000_0000, AtMost, 0x3FFF_FFFF, AtMost, 0x3FFF_FFFF, 0, 0).width < 0
    ensures OnMeasure(3, 0x4000_0000, AtMost, 0x3FFF_FFFF, AtMost, 0x3FFF_FFFF, 0, 0)
         == Measured(2, 0x3FFF_FFFF)
  {
    assert Wrap32(0x3FFF_FFFF * 3) == -1073741827;
  }

}

=== FILE: optional.dfy ===
/**
  The presence or absence of a value: the model's stand-in for the nullable
  references (uri, headers, media player) held by the video view.
*/
module Optional {

  datatype Option<T> = None | Some(value: T)

}

=== FILE: playback.dfy ===
/**
  The view as one transition system: every public call and every callback
  is a variant of Event, Step applies one, Run applies a sequence. The
  lemmas here are about traces: the engine invariant, the capability flags,
  and the intent-preserving behaviour of the two registers.
*/
module Playback {

  import opened Optional
  import opened ViewState
  import Transport
  import Listeners

  datatype Event =
    // public API
    | SetVideoUri(uri: Option<string>, headers: Option<map<string, string>>, outcome: OpenOutcome)
    | Start
    | Pause
    | SeekTo(ms: int)
    | Suspend
    | Resume(outcome: OpenOutcome)
    | StopPlayback
    // media-player callbacks
    | EnginePrepared(width: int, height: int, duration: int)
    | EngineVideoSize(width: int, height: int)
    | EngineCompletion
    | EngineError(what: int, extra: int)
    | EngineBuffering(percent: int)
    // surface-texture callbacks
    | SurfaceAvailable(outcome: OpenOutcome)
    | SurfaceSizeChanged(width: int, height: int)
    | SurfaceDestroyed

  /** The callbacks that only a media player can deliver. */
  predicate FromEngine(e: Event) {
    e.EnginePrepared? || e.EngineVideoSize? || e.EngineCompletion? ||
    e.EngineError? || e.EngineBuffering?
  }

  /** An engine callback can only arrive while an engine exists. */
  predicate Deliverable(s: View, e: Event) {
    FromEngine(e) ==> s.engine.Some?
  }

  function Step(s: View, e: Event): View {
    match e
    case SetVideoUri(uri, headers, outcome) => Transport.SetVideoUri(s, uri, headers, outcome)
    case Start => Transport.Start(s)
    case Pause => Transport.Pause(s)
    case SeekTo(ms) => Transport.SeekTo(s, ms)
    case Suspend => Transport.Suspend(s)
    case Resume(outcome) => Transport.Resume(s, outcome)
    case StopPlayback => Transport.StopPlayback(s)
    case EnginePrepared(w, h, d) => Listeners.OnPrepared(s, w, h, d)
    case EngineVideoSize(w, h) => Listeners.OnVideoSizeChanged(s, w, h)
    case EngineCompletion => Listeners.OnCompletion(s)
    case EngineError(what, extra) => Listeners.OnError(s, what, extra)
    case EngineBuffering(p) => Listeners.OnBufferingUpdate(s, p)
    case SurfaceAvailable(outcome) => Listeners.OnSurfaceAvailable(s, outcome)
    case SurfaceSizeChanged(w, h) => Listeners.OnSurfaceSizeChanged(s, w, h)
    case SurfaceDestroyed => Listeners.OnSurfaceDestroyed(s)
  }

  function Run(s: View, evs: seq<Event>): View
    decreases |evs|
  {
    if evs == [] then s else Run(Step(s, evs[0]), evs[1..])
  }

  /** Every event of the trace is deliverable in the state it reaches. */
  predicate Admissible(s: View, evs: seq<Event>)
    decreases |evs|
  {
    evs == [] || (Deliverable(s, evs[0]) && Admissible(Step(s, evs[0]), evs[1..]))
  }

  /** Running a concatenation is running its halves one after the other. */
  lemma {:induction false} RunAppend(s: View, a: seq<Event>, b: seq<Event>)
    ensures Run(s, a + b) == Run(Run(s, a), b)
    decreases |a|
  {
    if a == [] {
      assert a + b == b;
    } else {
      assert (a + b)[1..] == a[1..] + b;
      RunAppend(Step(s, a[0]), a[1..], b);
    }
  }

  /** A one-event trace is a step. */
  lemma RunOne(s: View, e: Event)
    ensures Run(s, [e]) == Step(s, e)
  {
    assert [e][1..] == [];
  }

  /** A trace of several events is its first step followed by the rest. */
  lemma RunCons(s: View, e: Event, evs: seq<Event>)
    ensures Run(s, [e] + evs) == Run(Step(s, e), evs)
  {
    assert ([e] + evs)[1..] == evs;
  }

  /** Every deliverable step keeps the engine invariant. */
  lemma StepPreservesWf(s: View, e: Event)
    requires Wf(s) && Deliverable(s, e)
    ensures Wf(Step(s, e))
  {
  }

  /**
    The engine invariant holds along every admissible trace: the engine is
    absent exactly when the current state is Idle.
  */
  lemma {:induction false} RunPreservesWf(s: View, evs: seq<Event>)
    requires Wf(s) && Admissible(s, evs)
    ensures Wf(Run(s, evs))
    decreases |evs|
  {
    if evs != [] {
      StepPreservesWf(s, evs[0]);
      RunPreservesWf(Step(s, evs[0]), evs[1..]);
    }
  }

  /**
    From a new view, whenever an admissible trace leaves no engine, the view
    is Idle and every query returns its sentinel.
  */
  lemma NoEngineAfterRun(evs: seq<Event>)
    requires Admissible(Initial(), evs)
    ensures var r := Run(Initial(), evs);
      r.engine.None? ==>
        r.current == Idle && Duration(r) == -1 && CurrentPosition(r) == 0 &&
        !IsPlaying(r) && BufferPercentage(r) == 0
  {
    RunPreservesWf(Initial(), evs);
  }

  /**
    Without the delivery discipline the invariant fails: the Java code keeps no
    player generation, so a prepared callback arriving after the engine is
    gone still moves the view to Prepared.
  */
  lemma StalePreparedBreaksWf(s: View, w: int, h: int, d: int)
    requires s.engine.None?
    ensures !Wf(Step(s, EnginePrepared(w, h, d)))
    ensures !IsInPlaybackState(Step(s, EnginePrepared(w, h, d)))
  {
  }

  /** Some event in the trace is a prepared callback. */
  predicate HasPrepared(evs: seq<Event>) {
    exists i :: 0 <= i < |evs| && evs[i].EnginePrepared?
  }

  /** One step sets the capability flags exactly when it is a prepared callback, and never clears them. */
  lemma StepCapabilities(s: View, e: Event)
    ensures Step(s, e).canPause <==> s.canPause || e.EnginePrepared?
    ensures Step(s, e).canSeekBack <==> s.canSeekBack || e.EnginePrepared?
    ensures Step(s, e).canSeekForward <==> s.canSeekForward || e.EnginePrepared?
  {
  }

  /**
    The capability flags are only ever set, by the prepared callback, and
    never cleared: after a trace each flag is set exactly when it was set
    before or the trace contains a prepared callback.
  */
  lemma {:induction false} RunCapabilities(s: View, evs: seq<Event>)
    ensures Run(s, evs).canPause <==> s.canPause || HasPrepared(evs)
    ensures Run(s, evs).canSeekBack <==> s.canSeekBack || HasPrepared(evs)
    ensures Run(s, evs).canSeekForward <==> s.canSeekForward || HasPrepared(evs)
    decreases |evs|
  {
    if evs != [] {
      var t := Step(s, evs[0]);
      StepCapabilities(s, evs[0]);
      RunCapabilities(t, evs[1..]);
      if HasPrepared(evs[1..]) {
        var i :| 0 <= i < |evs[1..]| && evs[1..][i].EnginePrepared?;
        assert evs[i + 1].EnginePrepared?;
      }
      if HasPrepared(evs) && !evs[0].EnginePrepared? {
        var i :| 0 <= i < |evs| && evs[i].EnginePrepared?;
        assert evs[1..][i - 1].EnginePrepared?;
      }
    }
  }

  /** From a new view, every capability query is false until the first prepared callback and true ever after. */
  lemma CapabilitiesFromInitial(evs: seq<Event>)
    ensures var r := Run(Initial(), evs);
      (r.canPause <==> HasPrepared(evs)) &&
      (r.canSeekBack <==> HasPrepared(evs)) &&
      (r.canSeekForward <==> HasPrepared(evs))
  {
    RunCapabilities(Initial(), evs);
  }

  /** start or pause, the two calls that only change intent until the engine is ready. */
  predicate IsIntent(e: Event) {
    e.Start? || e.Pause?
  }

  /**
    While the engine is preparing, a run of start/pause calls only rewrites
    the target register, and the last call decides it.
  */
  lemma {:induction false} IntentsWhilePreparing(s: View, intents: seq<Event>)
    requires s.engine.Some? && s.current == Preparing
    requires |intents| > 0 && forall i :: 0 <= i < |intents| ==> IsIntent(intents[i])
    ensures Run(s, intents) ==
      s.(target := if intents[|intents| - 1].Start? then Playing else Paused)
    decreases |intents|
  {
    var t := Step(s, intents[0]);
    assert IsIntent(intents[0]);
    if |intents| > 1 {
      IntentsWhilePreparing(t, intents[1..]);
      assert intents[1..][|intents| - 2] == intents[|intents| - 1];
    }
  }

  /**
    The target register wins the race with preparation: whatever sequence of
    start/pause calls arrives while preparing, the prepared callback ends in
    Playing exactly when the last of them was start, and in Prepared otherwise.
  */
  lemma LastIntentWins(s: View, intents: seq<Event>, w: int, h: int, d: int)
    requires s.engine.Some? && s.current == Preparing
    requires |intents| > 0 && forall i :: 0 <= i < |intents| ==> IsIntent(intents[i])
    ensures var r := Run(s, intents + [EnginePrepared(w, h, d)]);
      && (r.current == Playing <==> intents[|intents| - 1].Start?)
      && (intents[|intents| - 1].Start? ==> IsPlaying(r))
      && (intents[|intents| - 1].Pause? ==> r.current == Prepared)
  {
    RunAppend(s, intents, [EnginePrepared(w, h, d)]);
    IntentsWhilePreparing(s, intents);
  }

  /**
    A seek requested while preparing is replayed by the prepared callback:
    the engine ends at that position and nothing stays pending. A seek to 0
    is not replayed, yet still holds for an engine that has not moved, as
    every freshly opened one.
  */
  lemma SeekBeforePreparedApplied(s: View, ms: int, w: int, h: int, d: int)
    requires s.engine.Some? && s.current == Preparing && (ms != 0 || s.engine.value.position == 0)
    ensures var r := Run(s, [SeekTo(ms), EnginePrepared(w, h, d)]);
      CurrentPosition(r) == ms && r.seekWhenPrepared == 0 && Duration(r) == d
  {
    var pending := Step(s, SeekTo(ms));
    assert pending == s.(seekWhenPrepared := ms);
    RunCons(s, SeekTo(ms), [EnginePrepared(w, h, d)]);
    RunOne(pending, EnginePrepared(w, h, d));
  }

  /**
    suspend followed by resume keeps the caller's intent: once the reopened
    engine is prepared, the view plays exactly when it was meant to before.
  */
  lemma SuspendResumeKeepsIntent(s: View, w: int, h: int, d: int)
    requires s.uri.Some? && s.hasSurface
    ensures var r := Run(s, [Suspend, Resume(Prepares), EnginePrepared(w, h, d)]);
      (r.current == Playing <==> s.target == Playing) && (IsPlaying(r) <==> s.target == Playing)
  {
    var suspended := Step(s, Suspend);
    var reopened := Step(suspended, Resume(Prepares));
    assert reopened.current == Preparing && reopened.target == s.target;
    RunCons(s, Suspend, [Resume(Prepares), EnginePrepared(w, h, d)]);
    RunCons(suspended, Resume(Prepares), [EnginePrepared(w, h, d)]);
    RunOne(reopened, EnginePrepared(w, h, d));
  }

  /**
    stopPlayback followed by resume forgets the caller's intent when an engine
    existed: the reopened engine is prepared but not started.
  */
  lemma StopResumeDoesNotPlay(s: View, w: int, h: int, d: int)
    requires s.engine.Some? && s.uri.Some? && s.hasSurface
    ensures var r := Run(s, [StopPlayback, Resume(Prepares), EnginePrepared(w, h, d)]);
      r.current == Prepared && !IsPlaying(r) && r.target == Idle
  {
    var stopped := Step(s, StopPlayback);
    var reopened := Step(stopped, Resume(Prepares));
    assert reopened.current == Preparing && reopened.target == Idle;
    RunCons(s, StopPlayback, [Resume(Prepares), EnginePrepared(w, h, d)]);
    RunCons(stopped, Resume(Prepares), [EnginePrepared(w, h, d)]);
    RunOne(reopened, EnginePrepared(w, h, d));
  }

  /**
    Calling start before any source is set records the intent without an
    engine or an error; once a source and a surface arrive and the engine is
    prepared, playback starts by itself.
  */
  lemma StartBeforeSourceAutoPlays(uri: string, headers: Option<map<string, string>>,
                                   w: int, h: int, d: int)
    ensures var early := Run(Initial(), [Start]);
      early.target == Playing && early.engine.None? && early.current == Idle
    ensures var r := Run(Initial(), [Start, SetVideoUri(Some(uri), headers, Prepares),
                                   SurfaceAvailable(Prepares), EnginePrepared(w, h, d)]);
      r.current == Playing && IsPlaying(r) && Duration(r) == d
  {
    var prep := EnginePrepared(w, h, d);
    var started := Step(Initial(), Start);
    RunOne(Initial(), Start);
    var sourced := Step(started, SetVideoUri(Some(uri), headers, Prepares));
    assert sourced.engine.None? && sourced.target == Playing && !sourced.hasSurface;
    var attached := Step(sourced, SurfaceAvailable(Prepares));
    assert attached.current == Preparing && attached.target == Playing && attached.engine.Some?;
    RunCons(Initial(), Start, [SetVideoUri(Some(uri), headers, Prepares), SurfaceAvailable(Prepares), prep]);
    RunCons(started, SetVideoUri(Some(uri), headers, Prepares), [SurfaceAvailable(Prepares), prep]);
    RunCons(sourced, SurfaceAvailable(Prepares), [prep]);
    RunOne(attached, prep);
  }

  /**
    Without a start call, the prepared engine sits in Prepared: not playing,
    but the duration it reports is visible instead of -1.
  */
  lemma PreparedWithoutStartReportsDuration(uri: string, headers: Option<map<string, string>>,
                                            w: int, h: int, d: int)
    ensures var r := Run(Initial(), [SetVideoUri(Some(uri), headers, Prepares),
                                   SurfaceAvailable(Prepares), EnginePrepared(w, h, d)]);
      r.current == Prepared && !IsPlaying(r) && Duration(r) == d && CurrentPosition(r) == 0
  {
    var prep := EnginePrepared(w, h, d);
    var sourced := Step(Initial(), SetVideoUri(Some(uri), headers, Prepares));
    assert sourced.engine.None? && sourced.target == Idle && sourced.seekWhenPrepared == 0;
    var attached := Step(sourced, SurfaceAvailable(Prepares));
    assert attached.current == Preparing && attached.target == Idle && attached.engine == Some(FreshEngine);
    RunCons(Initial(), SetVideoUri(Some(uri), headers, Prepares), [SurfaceAvailable(Prepares), prep]);
    RunCons(sourced, SurfaceAvailable(Prepares), [prep]);
    RunOne(attached, prep);
  }

}

=== FILE: transport.dfy ===
/**
  The view's public transport API (start, pause, seekTo, suspend, resume,
  stopPlayback, setVideoURI) and the two internal operations it is built
  from, openVideo and release. Each is a pure function from the view before
  the call to the view after it.
*/
module Transport {

  import opened Optional
  import opened ViewState

  /**
    release(clearTarget): drops the engine and returns to Idle, keeping the
    target state unless asked to clear it; without an engine it does nothing.
  */
  function Release(s: View, clearTarget: bool): (r: View)
    ensures s.engine.None? ==> r == s
    ensures s.engine.Some? ==> r.engine.None? && r.current == Idle
    ensures s.engine.Some? && clearTarget ==> r.target == Idle
    ensures !clearTarget ==> r.target == s.target
    ensures r.(engine := s.engine, current := s.current, target := s.target) == s
  {
    if s.engine.None? then s
    else s.(engine := None, current := Idle, target := if clearTarget then Idle else s.target)
  }

  /**
    openVideo: a no-op until both a uri and a surface are present; otherwise
    it tears down any old engine keeping the target, builds a fresh one and
    either starts preparing it or, when setup throws, ends in Error/Error with
    the fresh engine still attached.
  */
  function OpenVideo(s: View, outcome: OpenOutcome): (r: View)
    ensures s.uri.None? || !s.hasSurface ==> r == s
    ensures s.uri.Some? && s.hasSurface ==>
      && r.engine == Some(FreshEngine)
      && !IsInPlaybackState(r)
      && (outcome == Prepares ==> r.current == Preparing && r.target == s.target)
      && (outcome != Prepares ==> r.current == Error && r.target == Error)
      && r.bufferPercentage == (if outcome == SessionRejected then s.bufferPercentage else 0)
    ensures r.uri == s.uri && r.headers == s.headers && r.hasSurface == s.hasSurface
    ensures r.seekWhenPrepared == s.seekWhenPrepared
    ensures r.videoWidth == s.videoWidth && r.videoHeight == s.videoHeight
    ensures r.canPause == s.canPause && r.canSeekBack == s.canSeekBack
    ensures r.canSeekForward == s.canSeekForward
  {
    if s.uri.None? || !s.hasSurface then s
    else
      var released := Release(s, false);
      var built := released.(engine := Some(FreshEngine));
      match outcome
      case Prepares => built.(bufferPercentage := 0, current := Preparing)
      case SessionRejected => built.(current := Error, target := Error)
      case SourceRejected => built.(bufferPercentage := 0, current := Error, target := Error)
  }

  /**
    setVideoURI(uri, headers): records the source, forgets any pending seek, then
    opens; the open ends as openVideo's does.
  */
  function SetVideoUri(s: View, uri: Option<string>, headers: Option<map<string, string>>,
                       outcome: OpenOutcome): (r: View)
    ensures r.uri == uri && r.headers == headers && r.seekWhenPrepared == 0
    ensures r.hasSurface == s.hasSurface
    ensures uri.Some? && s.hasSurface ==>
      && r.engine == Some(FreshEngine)
      && !IsInPlaybackState(r)
      && (outcome == Prepares ==> r.current == Preparing && r.target == s.target)
      && (outcome != Prepares ==> r.current == Error && r.target == Error)
      && r.bufferPercentage == (if outcome == SessionRejected then s.bufferPercentage else 0)
    ensures uri.None? || !s.hasSurface ==>
      r == s.(uri := uri, headers := headers, seekWhenPrepared := 0)
    ensures r.videoWidth == s.videoWidth && r.videoHeight == s.videoHeight
    ensures r.canPause == s.canPause && r.canSeekBack == s.canSeekBack
    ensures r.canSeekForward == s.canSeekForward
  {
    OpenVideo(s.(uri := uri, headers := headers, seekWhenPrepared := 0), outcome)
  }

  /**
    stopPlayback: with an engine, tears it down and clears both registers to
    Idle; without one it does nothing. The surface is kept.
  */
  function StopPlayback(s: View): (r: View)
    ensures r.engine.None?
    ensures s.engine.None? ==> r == s
    ensures s.engine.Some? ==> r.current == Idle && r.target == Idle
    ensures s.engine.Some? ==> r == s.(engine := None, current := Idle, target := Idle)
    ensures r.hasSurface == s.hasSurface && r.uri == s.uri
    ensures r.seekWhenPrepared == s.seekWhenPrepared
  {
    Release(s, true)
  }

  /** suspend: drops the engine but keeps the caller's intent in the target register. */
  function Suspend(s: View): (r: View)
    ensures r.engine.None? && r.target == s.target
    ensures s.engine.Some? ==> r.current == Idle
    ensures s.engine.None? ==> r == s
    ensures s.engine.Some? ==> r == s.(engine := None, current := Idle)
    ensures r.hasSurface == s.hasSurface && r.uri == s.uri
    ensures r.seekWhenPrepared == s.seekWhenPrepared
  {
    Release(s, false)
  }

  /**
    resume: reopens the stored source on the current surface. Nothing but the
    player, the registers and the buffer percentage can change, so a seek
    recorded before a suspend is still pending afterwards.
  */
  function Resume(s: View, outcome: OpenOutcome): (r: View)
    ensures s.uri.Some? && s.hasSurface ==>
      && r.engine == Some(FreshEngine)
      && !IsInPlaybackState(r)
      && (outcome == Prepares ==> r.current == Preparing && r.target == s.target)
      && (outcome != Prepares ==> r.current == Error && r.target == Error)
      && r.bufferPercentage == (if outcome == SessionRejected then s.bufferPercentage else 0)
    ensures s.uri.None? || !s.hasSurface ==> r == s
    ensures r.seekWhenPrepared == s.seekWhenPrepared
    ensures r.uri == s.uri && r.headers == s.headers && r.hasSurface == s.hasSurface
    ensures r.videoWidth == s.videoWidth && r.videoHeight == s.videoHeight
    ensures r.canPause == s.canPause && r.canSeekBack == s.canSeekBack
    ensures r.canSeekForward == s.canSeekForward
  {
    OpenVideo(s, outcome)
  }

  /**
    start: always records the intent to play; only in playback state does it
    also set the engine playing and the current state to Playing.
  */
  function Start(s: View): (r: View)
    ensures r.target == Playing
    ensures IsInPlaybackState(s) ==> r.current == Playing && IsPlaying(r)
    ensures IsInPlaybackState(s) ==>
      r.engine.value.position == s.engine.value.position &&
      r.engine.value.duration == s.engine.value.duration
    ensures !IsInPlaybackState(s) ==> r == s.(target := Playing)
    ensures r.(current := s.current, target := s.target, engine := s.engine) == s
  {
    if IsInPlaybackState(s) then
      s.(engine := Some(s.engine.value.(playing := true)), current := Playing, target := Playing)
    else
      s.(target := Playing)
  }

  /**
    pause: always records the intent to pause; the engine and the current
    state change only when the view is in playback state and actually playing.
  */
  function Pause(s: View): (r: View)
    ensures r.target == Paused
    ensures !IsPlaying(r)
    ensures IsPlaying(s) ==> r.current == Paused && IsInPlaybackState(r)
    ensures IsPlaying(s) ==>
      r.engine.value.position == s.engine.value.position &&
      r.engine.value.duration == s.engine.value.duration
    ensures !IsPlaying(s) ==> r == s.(target := Paused)
    ensures r.(current := s.current, target := s.target, engine := s.engine) == s
  {
    if IsInPlaybackState(s) && s.engine.value.playing then
      s.(engine := Some(s.engine.value.(playing := false)), current := Paused, target := Paused)
    else
      s.(target := Paused)
  }

  /**
    seekTo(ms): in playback state the engine moves to ms and the pending seek
    is cleared; otherwise ms is only remembered for when preparation ends.
  */
  function SeekTo(s: View, ms: int): (r: View)
    ensures IsInPlaybackState(s) ==>
      IsInPlaybackState(r) && CurrentPosition(r) == ms && r.seekWhenPrepared == 0 &&
      IsPlaying(r) == IsPlaying(s) && Duration(r) == Duration(s)
    ensures !IsInPlaybackState(s) ==> r == s.(seekWhenPrepared := ms)
    ensures r.current == s.current && r.target == s.target
    ensures r.engine.Some? <==> s.engine.Some?
    ensures r.(engine := s.engine, seekWhenPrepared := s.seekWhenPrepared) == s
  {
    if IsInPlaybackState(s) then
      s.(engine := Some(s.engine.value.(position := ms)), seekWhenPrepared := 0)
    else
      s.(seekWhenPrepared := ms)
  }

}

=== FILE: view_state.dfy ===
/**
  The state of a TextureVideoView: the two playback registers, the pending
  source and seek, the capability flags, the buffer percentage, the last
  reported video size, and the presence of the surface and of the engine.
  The media player is an abstract engine value held in an Option; what the
  view reads back from it (isPlaying, getCurrentPosition, getDuration) are
  its fields.
*/
module ViewState {

  import opened Optional

  /** The seven playback states; TextureVideoView encodes them as the ints -1 .. 5. */
  datatype PlayState =
    | Error
    | Idle
    | Preparing
    | Prepared
    | Playing
    | Paused
    | PlaybackCompleted

  /** The observable part of a media player instance. */
  datatype Engine = Engine(playing: bool, position: int, duration: int)

  /** A freshly constructed player: not playing, at the start, duration not yet known. */
  const FreshEngine: Engine := Engine(false, 0, 0)

  /** How the synchronous setup in openVideo ends. */
  datatype OpenOutcome =
    | Prepares          // every setter accepted; prepareAsync was issued
    | SessionRejected   // setAudioSessionId threw, before the buffer percentage was reset;
                        // TextureVideoView calls it only once a session id has been recorded,
                        // so the very first open cannot end this way (the id is not modelled)
    | SourceRejected    // setDataSource threw, after the buffer percentage was reset

  datatype View = View(
    current: PlayState,
    target: PlayState,
    uri: Option<string>,
    headers: Option<map<string, string>>,
    hasSurface: bool,
    engine: Option<Engine>,
    videoWidth: int,
    videoHeight: int,
    bufferPercentage: int,
    seekWhenPrepared: int,
    canPause: bool,
    canSeekBack: bool,
    canSeekForward: bool)

  /**
    A newly constructed view: both registers Idle, nothing attached, every
    number 0 and no capability. It already satisfies the engine invariant, and
    every query returns its sentinel.
  */
  function Initial(): (v: View)
    ensures v.current == Idle && v.target == Idle
    ensures v.uri.None? && v.headers.None? && !v.hasSurface && v.engine.None?
    ensures v.videoWidth == 0 && v.videoHeight == 0
    ensures v.bufferPercentage == 0 && v.seekWhenPrepared == 0
    ensures !v.canPause && !v.canSeekBack && !v.canSeekForward
    ensures Wf(v) && !IsInPlaybackState(v) && !IsPlaying(v)
    ensures Duration(v) == -1 && CurrentPosition(v) == 0 && BufferPercentage(v) == 0
  {
    View(Idle, Idle, None, None, false, None, 0, 0, 0, 0, false, false, false)
  }

  /**
    The engine exists and has got past preparation without failing. Every
    query and command that talks to the player directly is gated by it; under
    the engine invariant it needs no look at the player at all.
  */
  predicate IsInPlaybackState(s: View)
    ensures IsInPlaybackState(s) ==> s.engine.Some?
    ensures Wf(s) ==> (IsInPlaybackState(s) <==>
      s.current == Prepared || s.current == Playing || s.current == Paused ||
      s.current == PlaybackCompleted)
  {
    s.engine.Some? && s.current != Error && s.current != Idle && s.current != Preparing
  }

  /**
    getDuration: the player's duration in playback state; -1 whenever the
    view is Idle, preparing or failed.
  */
  function Duration(s: View): (d: int)
    ensures IsInPlaybackState(s) ==> d == s.engine.value.duration
    ensures s.current == Idle || s.current == Error || s.current == Preparing ==> d == -1
  {
    if IsInPlaybackState(s) then s.engine.value.duration else -1
  }

  /**
    getCurrentPosition: the player's position in playback state; 0 whenever
    the view is Idle, preparing or failed.
  */
  function CurrentPosition(s: View): (p: int)
    ensures IsInPlaybackState(s) ==> p == s.engine.value.position
    ensures s.current == Idle || s.current == Error || s.current == Preparing ==> p == 0
  {
    if IsInPlaybackState(s) then s.engine.value.position else 0
  }

  /**
    isPlaying: the player reports playing and the view is in playback state;
    under the engine invariant an Idle, preparing or failed view never plays.
  */
  predicate IsPlaying(s: View)
    ensures IsPlaying(s) ==> s.engine.Some? && s.engine.value.playing
    ensures IsInPlaybackState(s) ==> (IsPlaying(s) <==> s.engine.value.playing)
    ensures Wf(s) && IsPlaying(s) ==>
      s.current == Prepared || s.current == Playing || s.current == Paused ||
      s.current == PlaybackCompleted
  {
    IsInPlaybackState(s) && s.engine.value.playing
  }

  /**
    getBufferPercentage: gated by the player alone, not by the playback state;
    under the engine invariant it is 0 exactly in the Idle state and the last
    reported percentage in every other one, Error and Preparing included.
  */
  function BufferPercentage(s: View): (b: int)
    ensures Wf(s) && s.current == Idle ==> b == 0
    ensures Wf(s) && s.current != Idle ==> b == s.bufferPercentage
  {
    if s.engine.Some? then s.bufferPercentage else 0
  }

  /** The engine invariant: there is no engine exactly when the current state is Idle. */
  predicate Wf(s: View) {
    s.engine.None? <==> s.current == Idle
  }

  /** Without an engine, a well-formed view is Idle and every query returns its sentinel. */
  lemma NoEngineSentinels(s: View)
    requires Wf(s) && s.engine.None?
    ensures s.current == Idle && !IsInPlaybackState(s)
    ensures Duration(s) == -1 && CurrentPosition(s) == 0
    ensures !IsPlaying(s) && BufferPercentage(s) == 0
  {
  }

}
